=== FILE: README.md ===
# infinite-platforms: a Dafny model of the level simulation

This project models the per-tick rules of a vertical-scrolling platform
jumper written with pygame. A player walks and jumps across platforms that
scroll down the window. Landing on a platform for the first time scores a
point. Every `EXIT_AMOUNT` points an exit platform is spawned, and landing
on it starts the next level with a new background and a slightly lower
platform speed. Falling out of the window hands the score, high score and
background to the game-over screen.

The model is functional: immutable records for the player, the platforms,
the level and the game, and pure step functions over sequences. pygame's
sprite groups become ordered sequences. Callbacks become flags and counts
that the level's tick acts on in the same order as the source.

Units and parameters:

- Every length is an integer number of half-pixels. The level speed of one
  pixel per tick is `2`, and the source's `+= 0.5` is `+ 1`.
- The player's walk speed of 3 pixels is `6`, and its jump force of -20 is `-40`.
- Gravity (0.8 pixels in the source) is an integer field of `Settings.Config`.
- The `settings` constants (`TILE_SIZE`, `WINDOW_WIDTH`, `WINDOW_HEIGHT`,
  `WINDOW_WIDTH_IN_TILES`, `EXIT_AMOUNT`, `NUM_OF_PLATFORMS_BEFORE_SPEED_INCREASE`,
  `MAX_PLATFORM_SPEED`, `PLAYER_SIZE`) are fields of `Settings.Config`.
  `Config.Valid` has four conjuncts. `tileSize > 0` gives every platform
  and exit a non-empty rectangle. `exitAmount > 0` and `speedEvery > 0`
  rule out Python's `ZeroDivisionError` on `%` and make Python's floored
  `%` agree with Dafny's. `windowWidth >= 0` is not something the code
  checks: it is what the wrap bound of `PlayerSprite.MoveHorizontally`
  needs.
- `random.choice` and `random.randint` are replaced by a `LevelSim.Draw`
  parameter. `DrawOk` requires the draw to lie in the ranges those calls
  return. In a tick, `draws[i]` is used when the i-th platform of the
  group is killed and replaced.

Modules, one per source file: `ModeState` (state.py), `EndGameMode`
(endgame.py), `PlatformSprite` (platform.py), `PlayerSprite` (player.py),
`LevelSim` (level.py), `GameSession` (game.py) and `TextSplit` (utils.py).
`Geometry` holds pygame's `Rect` conventions. `Settings` holds the
constants. `Wrappers` holds `Option` and `Result`.

Quirks of the code that the model keeps:

- `handle_vertical_movement` always ends its scan by clearing
  `current_platform` (player.py:103). Because the field starts as None, the
  player never stands on a platform, and gravity applies on every tick.
- A platform's `player` reference is never cleared. A platform the player
  once landed on keeps moving the player down with it on every later tick,
  even after the player has jumped away.
- `spawn_platform` treats an argument of `0` as not supplied. So
  `initial_y=0` places the platform one tile above the window, and
  `initial_x=0` draws a random column.
- The exit platform's image is always five tiles wide, but its column is
  drawn for the randomly chosen width. An exit platform can therefore
  reach past the right edge of the window.
- `ExitPlatform.update` does not move the attached player. It calls
  `on_land` on every tick the player is set.

Three behaviours of the code that a reader may not expect:

- The wrap-around is a teleport, not "x mod width". A sprite that leaves on
  the left reappears with its left edge at `WINDOW_WIDTH`. A sprite that
  leaves on the right reappears with its right edge at `0`.
- The high score is not raised at death. Only `increment_score` raises it.
- The scan does not keep the platform it landed on as `current_platform`.

## Model

| member | source | states |
|---|---|---|
| ModeState.Fresh | state.py:5-9 | a new mode is not done, not quitting, has no next mode and an empty persistent dictionary |
| ModeState.Startup | state.py:11-12 | startup replaces the persistent dictionary with the given one and changes nothing else |
| ModeState.GetEvent | state.py:14-18 | quit ends up set iff it was already set or the event is QUIT or a KEYUP of ESCAPE; done, next mode and persist never change |
| ModeState.BaseModeOnlyQuits | state.py:14-18 | over any queue of events the base mode never switches mode, and quit is set iff some event asked to quit |
| EndGameMode.Startup | endgame.py:15-19 | succeeds iff score, high_score and bg_image are all present, copying them unchanged; otherwise it reports a key that is missing (Python's KeyError) |
| EndGameMode.GetEvent | endgame.py:55-59 | a KEYDOWN of any key but ESCAPE sets done and next mode GAMEPLAY; any other event leaves both alone; the base quit handling still applies |
| EndGameMode.EscapeNeverRestarts | endgame.py:55-59 | pressing ESCAPE causes no transition and no quit; releasing it quits |
| PlatformSprite.Spawned | platform.py:7-17 | a new platform has the given rectangle, no player, speed 0 and has_player false |
| PlatformSprite.Update | platform.py:22-35 | the platform stores the speed and moves by exactly it; an attached player moves by the same amount; on_land fires iff a player is set and has_player was false, after which has_player is true; on_kill fires iff the top edge is below the window |
| PlatformSprite.ExitUpdate | platform.py:41-45 | the exit platform stores the speed and moves by it, keeps its player, and fires on_land iff a player is set; it has no kill path |
| PlatformSprite.LandsAtMostOnce | platform.py:17-30 | over any lifetime of attachments and updates, on_land fires at most once, and never once has_player is set |
| PlatformSprite.ExitKeepsFiring | platform.py:41-45 | once its player is set, an exit platform fires on_land on every later update |
| PlayerSprite.Spawn | player.py:9-36 | a new player stands at the given position with PLAYER_SIZE, zero velocity, not jumping, and no current platform |
| PlayerSprite.Jump | player.py:62-65 | a player not jumping starts jumping with vertical velocity jump_force; a jumping player is unchanged |
| PlayerSprite.JumpIdempotent | player.py:62-65 | jumping twice equals jumping once |
| PlayerSprite.MoveHorizontally | player.py:67-73 | the left edge ends in [-width, WINDOW_WIDTH]; a sprite fully off the left reappears at left = WINDOW_WIDTH, one beyond the right at right = 0, otherwise it moves by speed * direction.x; nothing but x changes |
| PlayerSprite.ApplyGravity | player.py:55-60 | without a current platform the vertical velocity grows by gravity and y moves by the new velocity; with one nothing changes |
| PlayerSprite.FirstLanding | player.py:93-101 | finds the first platform in group order that overlaps the player and whose centre is lower than the player's, or reports that none does |
| PlayerSprite.MarkExits | player.py:88-91 | every exit platform that overlaps the player from above gets the player set, without early exit; nothing else about any exit changes |
| PlayerSprite.MoveVertically | player.py:76-103 | standing: pinned to the platform top; jumping off: detached; airborne: exits are marked, and the first qualifying platform gets the player, zero vertical velocity, bottom = platform top and jumping cleared, with all other platforms unchanged; the scan always leaves current_platform None |
| PlayerSprite.Update | player.py:135-143 | the returned player and groups are those of the vertical pass applied after gravity, applied after the horizontal move, in that order; on_death is called iff the resulting top edge is below the window; group sizes are kept; a player without a current platform still has none |
| PlayerSprite.GravityAlwaysApplies | player.py:36-103 | a player starting with no current platform still has none after an update; when it lands on nothing, gravity has changed its velocity |
| LevelSim.Spawn | level.py:52-66 | adds exactly one sprite, to the exit group iff score > 0, score % EXIT_AMOUNT == 0 and there is no exit platform, otherwise to the platforms; the sprite is fresh, at the chosen column, at initial_y tiles or one tile above the window, one tile high, five tiles wide for an exit; a drawn column keeps an ordinary platform inside the window |
| LevelSim.SpawnPlatform | level.py:52-66 | the level-level spawn puts the new groups into the level and keeps the one-exit invariant |
| LevelSim.RandomSpawnFitsWindow | level.py:53-61 | a spawn with nothing supplied adds one ordinary platform lying within [0, WINDOW_WIDTH_IN_TILES] tiles, one tile above the window |
| LevelSim.Pause | level.py:49-50 | toggles paused and changes nothing else |
| LevelSim.PauseTwiceIsIdentity | level.py:49-50 | pausing twice gives back the same level |
| LevelSim.IncrementScore | level.py:68-71 | the score rises by exactly one; the high score never decreases, is at least the new score, and is either the old high score or the new score |
| LevelSim.NextSpeed | level.py:99 | the next level's speed is max(1 pixel, speed - 1 pixel), never above the current speed |
| LevelSim.IncrementLevel | level.py:97-99 | adds one point through increment_score, so the high score becomes exactly max(high score, score + 1) (level.py:70-71), then requests the next level with the new score and the lowered speed |
| LevelSim.OnPlayerDeath | level.py:138-146 | sets next mode ENDGAME and done; writes score, high_score and bg_image into persist and keeps every other key; requests a save iff score >= high score |
| LevelSim.SpeedStep | level.py:80-87 | at or above the maximum the flag is disarmed and speed is kept; below it, off a multiple of N the flag is re-armed; on a multiple the flag is disarmed and speed rises by half a pixel iff the flag was armed |
| LevelSim.SpeedMonotone | level.py:80-87 | over the speed blocks of successive ticks, speed never decreases, rises by at most one step per block, and never passes the maximum from below |
| LevelSim.OneIncreasePerBand | level.py:80-87 | over the speed blocks of successive ticks whose scores are all multiples of N, speed rises at most once, and not at all when the flag starts disarmed |
| LevelSim.ExactlyOneIncreasePerBand | level.py:80-87 | over the speed blocks of successive ticks, entering a band of multiples of N from off the band, below the maximum, gives exactly one increase however long the band lasts |
| LevelSim.CarriedDistanceIsSpeedTimesCount | platform.py:25-26 | the player is carried by the speed once for every platform that holds it |
| LevelSim.PassStep | level.py:93 | one platform of the pass: sprite count grows by one net of its kill and respawn, a point iff it is landed on for the first time, the player carried iff attached |
| LevelSim.Survivors | platform.py:22-35 | the platforms a pass keeps are at most as many as the group, and all are still on screen |
| LevelSim.SurvivorSource | platform.py:22-35 | for each survivor, names the platform of the group it came from, which it equals moved down by exactly the speed |
| LevelSim.SurvivorsMovedBySpeed | platform.py:22-35 | every survivor is a platform of the group moved down by exactly the speed, and when no update kills, every platform survives |
| LevelSim.PassKeepsSurvivors | level.py:93 | the pass keeps exactly the platforms that survive their update, in their old order, and removes the killed ones (platform.py:33-35) |
| LevelSim.TickKeepsSurvivors | level.py:93 | after a tick the ordinary group starts with the survivors of the pass, in their old order; every sprite after them is a fresh replacement one tile above the window and inside it |
| LevelSim.PassStepReplacements | level.py:52-66 | one platform of the pass appends at most its own replacement: a fresh sprite with nobody on it, one tile high and one tile above the window, at a drawn column, inside the window when it is an ordinary platform |
| LevelSim.PassReplacements | level.py:93 | every sprite a pass appends to either group is such a replacement made by spawn_platform() for a killed platform, after the sprites already there |
| LevelSim.PlatformPass | level.py:93 | over the platforms group, each kill is replaced by exactly one sprite, at most one exit platform exists and an existing one stays, survivors are on screen, the score rises by the number of first landings with the high score = max(high score, score), and the player is carried once per attached platform |
| LevelSim.ExitPass | level.py:94 | the exit platform moves by the speed and fires iff it holds the player |
| LevelSim.AfterPlayer | level.py:78 | after the player's update the level holds the player's new state and the marked groups, and the death hand-off has happened iff the player died |
| LevelSim.Tick | level.py:77-94 | a tick keeps at most one exit platform and a player without a current platform, never changes the total number of sprites, and never loses an existing exit platform |
| LevelSim.TickBookkeeping | level.py:68-87 | in a tick the score and high score never decrease, the high score stays at or above the score, and the speed is the speed block's result, never lower |
| LevelSim.TickSpeed | level.py:80-87 | a tick runs the speed block exactly once: the new speed and can_increase_speed flag are one speed step from the old ones at the tick's starting score, so the band lemmas apply to successive ticks |
| LevelSim.TickScore | level.py:68-99 | the score rises by exactly the number of first landings plus one when the exit fires, and a high score at or above the score ends as the larger of itself and the new score |
| LevelSim.TickDeathHandOff | level.py:138-146 | the hand-off to the game-over mode happens iff the player's top edge is below the window after its update, carries the score from the start of the tick, and otherwise leaves the game's mode alone |
| LevelSim.TickAdvance | level.py:94-99 | the next level is requested iff the exit platform holds the player, with the score after the extra point and a speed of at least one pixel |
| LevelSim.CarriedByPlatforms | platform.py:25-26 | after the platform pass the player has moved by the speed once per platform holding it, and the exit platform never moves it |
| LevelSim.NewLevel | level.py:13-47 | a new level keeps the given score, speed and background, starts with the speed flag disarmed and unpaused, has three starting sprites, an exit among them iff the score is a positive multiple of EXIT_AMOUNT, and the player two tiles down |
| LevelSim.NoIncreaseOnFirstTick | level.py:28 | the first tick of a level never raises the speed |
| GameSession.NextLevel | game.py:35-42 | fails iff there are no backgrounds; otherwise uses background current_level_number mod count, advances the counter by one, and starts the level with the given score and speed |
| GameSession.NewGame | game.py:10-26 | the first level starts with score 0 at one pixel per tick on the first background, the counter then reads 1, and the loaded high score is kept |
| GameSession.Step | level.py:94-99 | a new level starts exactly when the tick requested one (the exit platform held the player), with the score reached and `NextSpeed`, the next background and the counter advanced; otherwise the game holds the ticked level; across both the score and high score never decrease |
| GameSession.DeathHandOffReachesEndGame | level.py:138-146 | what the level writes on death is exactly what the game-over screen reads back |
| TextSplit.Stride | utils.py:19 | text[::2] holds the characters at even positions, in order |
| TextSplit.Spaced | utils.py:19 | the join puts the k-th character at position 2k and a space at every odd position, with length 2n-1 |
| TextSplit.OddPositions | utils.py:20 | text[1::2] holds the characters at odd positions, in order |
| TextSplit.OddTextLayout | utils.py:19 | odd_text has text[2k] at position 2k and spaces at odd positions |
| TextSplit.EvenTextLayout | utils.py:20 | even_text has text[2k+1] at position 2k+1 and spaces at even positions |
| TextSplit.OddTextAt | utils.py:19 | each even position of the text shows through odd_text |
| TextSplit.EvenTextAt | utils.py:20 | each odd position of the text shows through even_text |
| TextSplit.OverlayRecoversText | utils.py:19-20 | overlaying the two strings recovers every character of the text |
| TextSplit.EmptyText | utils.py:19-20 | the empty text gives "" and " " |

## Left out

- Drawing, fonts, sprite images and animation (`draw*`, `get_status`, `animate`, `Splash`): these are rendering only, and `animate` uses a float frame index.
- Background scrolling (level.py:89-91): it is presentation only and depends on the image height.
- High-score file I/O (`load_high_score`, `save_high_score`, `import_folder`): the loaded value is a parameter of `GameSession.NewGame`, and the save is the flag `saveRequested`.
- `main.py`, the state machine that switches modes, and the loop that calls `Level.update` are not part of this model. Nothing in level.py skips updates while paused: `Level.update` never reads `paused`, and only `draw` does (level.py:131). So `pause` is modelled as the toggle it is, and `Tick` ignores it.
- `Level.handle_input` calls `self.player.sprite.handle_input()` (level.py:75), but player.py defines no `handle_input`, so as written that call raises `AttributeError`. Nothing in player.py assigns `direction.x` except its initial 0 (player.py:28). The model takes `dirX` as a free field of the player record.
- Float arithmetic: positions are integers in half-pixels, and gravity is an integer step. So pygame's truncation of float increments and `centery` rounding at pixel scale are not modelled.
- `initial_h` is never used for the rectangle, because the platform always gets an image, so it is left out.
- `Game` in game.py does not set up the `done`, `next_state` and `persist` fields that `on_player_death` writes. The model gives the game's session a fresh base mode for them (`GameSession.NewGame`).
- Exit platforms: the model handles groups of at most one, which `LevelSim.Level.Valid` keeps as an invariant.
- `next_level` calls `self.level.run()` (game.py:42), but `Level` (level.py:12-146) defines no `run`, so as written that line raises `AttributeError`. The model does not reproduce the error. `GameSession.NextLevel` ends once the new level is built, and `GameSession.Step` replaces the level on the first request. Later firings of the old exit platform are therefore not modelled.
- PlayerSprite.MoveVertically: `current_platform` becomes a position in the platforms group. The standing branch therefore needs that position to exist. The source's object reference cannot dangle there, because the field is always None by then.
- LevelSim.Spawn: a width outside {2, 3, 4, 5} for an ordinary platform raises `KeyError` on the asset table. The requires excludes that case instead of modelling the error.
- `random.randint` with an empty range raises `ValueError`. The requires asks for a draw in range, which excludes that case too.

=== FILE: end_game.dfy ===
/** The game-over screen of endgame.py: it reads the final score, high
    score and background from the persistent dictionary, and restarts play
    on any key press except ESCAPE. */
module EndGameMode {

  import opened Wrappers
  import opened ModeState

  datatype Screen = Screen(mode: Mode, score: Value, highScore: Value, background: Value)

  /** Indexing a Python dict with a missing key raises `KeyError`. */
  datatype StartupError = MissingKey(key: string)

  /** The keys `EndGame.startup` reads, in the order it reads them. */
  predicate HasHandOff(persistent: map<string, Value>) {
    "score" in persistent && "high_score" in persistent && "bg_image" in persistent
  }

  /** `EndGame.startup`. */
  function Startup(m: Mode, persistent: map<string, Value>): (r: Result<Screen, StartupError>)
    ensures r.Success? <==> HasHandOff(persistent)
    ensures r.Success? ==>
      && r.value.mode == ModeState.Startup(m, persistent)
      && r.value.score == persistent["score"]
      && r.value.highScore == persistent["high_score"]
      && r.value.background == persistent["bg_image"]
    ensures r.Failure? ==>
      && r.error.key !in persistent
      && r.error.key in ["score", "high_score", "bg_image"]
  {
    var m' := ModeState.Startup(m, persistent);
    if "score" !in persistent then Failure(MissingKey("score"))
    else if "high_score" !in persistent then Failure(MissingKey("high_score"))
    else if "bg_image" !in persistent then Failure(MissingKey("bg_image"))
    else Success(Screen(m', persistent["score"], persistent["high_score"], persistent["bg_image"]))
  }

  /** A key press that restarts play. */
  predicate Restarts(e: Event) {
    e.KeyDown? && e.key != Escape
  }

  /** `EndGame.get_event`: the base quit handling, then a restart on any key
      press except ESCAPE. */
  function GetEvent(s: Screen, e: Event): (r: Screen)
    ensures r.mode.quit <==> s.mode.quit || RequestsQuit(e)
    ensures Restarts(e) ==> r.mode.done && r.mode.next == Some(Gameplay)
    ensures !Restarts(e) ==> r.mode.done == s.mode.done && r.mode.next == s.mode.next
    ensures r.mode.persist == s.mode.persist
    ensures r.score == s.score && r.highScore == s.highScore && r.background == s.background
  {
    var base := ModeState.GetEvent(s.mode, e);
    if e.KeyDown? && e.key != Escape then
      s.(mode := base.(next := Some(Gameplay), done := true))
    else
      s.(mode := base)
  }

  /** Pressing ESCAPE on the game-over screen never restarts play; only
      releasing it quits. */
  lemma EscapeNeverRestarts(s: Screen)
    ensures var r := GetEvent(s, KeyDown(Escape));
      r.mode.done == s.mode.done && r.mode.next == s.mode.next && r.mode.quit == s.mode.quit
    ensures GetEvent(s, KeyUp(Escape)).mode.quit
  {
  }

}

=== FILE: game_session.dfy ===
/** The level sequencing of game.py: levels cycle through the backgrounds
    by a counter, each new level starts from the score and speed the last
    one handed over, and the game's session carries the high score and the
    mode fields the level writes on death. */
module GameSession {

  import opened Wrappers
  import opened Settings
  import opened ModeState
  import opened LevelSim
  import EndGameMode

  /** `current_level_number` and the loaded backgrounds. */
  datatype Backdrops = Backdrops(levelNumber: nat, backgrounds: seq<Image>)

  /** `self.backgrounds[n % len(self.backgrounds)]` raises
      `ZeroDivisionError` when no background was loaded. */
  datatype GameError = NoBackgrounds

  datatype Started = Started(backdrops: Backdrops, level: Level)

  /** `next_level(score, platform_speed)`: pick the background for the
      current counter, advance the counter, build the level. */
  function NextLevel(cfg: Config, b: Backdrops, score: int, speed: int): (r: Result<Started, GameError>)
    requires cfg.Valid()
    ensures r.Failure? <==> |b.backgrounds| == 0
    ensures r.Success? ==>
      && r.value.backdrops.levelNumber == b.levelNumber + 1
      && r.value.backdrops.backgrounds == b.backgrounds
      && r.value.level.background == b.backgrounds[b.levelNumber % |b.backgrounds|]
      && r.value.level.score == score && r.value.level.speed == speed
      && r.value.level.Valid() && !r.value.level.canIncreaseSpeed
  {
    if |b.backgrounds| == 0 then Failure(NoBackgrounds)
    else
      var bg := b.backgrounds[b.levelNumber % |b.backgrounds|];
      Success(Started(Backdrops(b.levelNumber + 1, b.backgrounds), NewLevel(cfg, score, speed, bg)))
  }

  datatype Game = Game(session: Session, backdrops: Backdrops, level: Level) {
    predicate Valid() {
      |backdrops.backgrounds| > 0 && level.Valid()
    }
  }

  /** `Game.__init__` after the splash screen: the counter starts at 0 and
      the first level starts with score 0 at one pixel per tick. The high
      score is whatever the high-score file held. */
  function NewGame(cfg: Config, backgrounds: seq<Image>, highScore: int): (r: Result<Game, GameError>)
    requires cfg.Valid()
    ensures r.Failure? <==> |backgrounds| == 0
    ensures r.Success? ==>
      && r.value.Valid()
      && r.value.backdrops == Backdrops(1, backgrounds)
      && r.value.level.score == 0 && r.value.level.speed == 2
      && r.value.level.background == backgrounds[0]
      && r.value.session == Session(highScore, Fresh())
  {
    match NextLevel(cfg, Backdrops(0, backgrounds), 0, 2)
    case Failure(e) => Failure(e)
    case Success(st) => Success(Game(Session(highScore, Fresh()), st.backdrops, st.level))
  }

  datatype GameStep = GameStep(game: Game, died: bool, saveRequested: bool, advanced: bool)

  /** One tick of play: the level's tick, then the next level when the
      level asked for one. */
  function Step(cfg: Config, g: Game, draws: seq<Draw>): (r: GameStep)
    requires cfg.Valid() && g.Valid()
    requires |draws| >= |g.level.platforms|
    requires forall i :: 0 <= i < |draws| ==> DrawOk(cfg, draws[i])
    ensures r.game.Valid()
    ensures r.game.backdrops.backgrounds == g.backdrops.backgrounds
    ensures r.game.backdrops.levelNumber == g.backdrops.levelNumber + (if r.advanced then 1 else 0)
    ensures r.game.level.score >= g.level.score
    ensures r.game.session.highScore >= g.session.highScore
    ensures g.session.highScore >= g.level.score ==> r.game.session.highScore >= r.game.level.score
    ensures r.advanced ==>
      && r.game.level.background == g.backdrops.backgrounds[g.backdrops.levelNumber % |g.backdrops.backgrounds|]
      && r.game.level.speed >= 2
      && !r.game.level.canIncreaseSpeed
    // the next level starts exactly when the tick asked for one
    ensures var t := Tick(cfg, g.level, g.session, draws);
      && (r.advanced <==> t.advance.Some?)
      && (!r.advanced ==> r.game.level == t.level)
      && (r.advanced ==> r.game.level.score == t.level.score && r.game.level.speed == NextSpeed(t.level.speed))
  {
    var t := Tick(cfg, g.level, g.session, draws);
    TickAdvance(cfg, g.level, g.session, draws);
    TickBookkeeping(cfg, g.level, g.session, draws);
    match t.advance
    case None => GameStep(Game(t.session, g.backdrops, t.level), t.died, t.saveRequested, false)
    case Some(req) =>
      var st := NextLevel(cfg, g.backdrops, req.score, req.speed).value;
      GameStep(Game(t.session, st.backdrops, st.level), t.died, t.saveRequested, true)
  }

  /** What the level writes on death is exactly what the game-over screen
      reads: its score, the session high score and its background. */
  lemma DeathHandOffReachesEndGame(lvl: Level, s: Session, m: Mode)
    ensures var persist := OnPlayerDeath(lvl, s).session.mode.persist;
      EndGameMode.Startup(m, persist)
        == Success(EndGameMode.Screen(ModeState.Startup(m, persist), Num(lvl.score), Num(s.highScore), Picture(lvl.background)))
  {
  }

}

=== FILE: geometry.dfy ===
/** Axis-aligned rectangles with pygame's `Rect` conventions: the origin is
    the top-left corner and y grows downward. Every length in the model is
    an integer number of half-pixels. */
module Geometry {

  datatype Rect = Rect(x: int, y: int, w: nat, h: nat) {

    function Left(): int { x }

    function Top(): int { y }

    function Right(): int { x + w }

    function Bottom(): int { y + h }

    /** pygame computes `centery` as `y + h / 2` in C integer division. */
    function CenterY(): int { y + h / 2 }

    /** Assigning `rect.bottom`: the rectangle moves, its size does not. */
    function WithBottom(b: int): (r: Rect)
      ensures r.Bottom() == b
      ensures r.x == x && r.w == w && r.h == h
    {
      Rect(x, b - h, w, h)
    }

    /** Assigning `rect.right`. */
    function WithRight(rt: int): (r: Rect)
      ensures r.Right() == rt
      ensures r.y == y && r.w == w && r.h == h
    {
      Rect(rt - w, y, w, h)
    }

    /** `rect.y += dy`. */
    function ShiftY(dy: int): (r: Rect)
      ensures r.y == y + dy
      ensures r.x == x && r.w == w && r.h == h
    {
      Rect(x, y + dy, w, h)
    }
  }

  /** pygame's `colliderect`: empty rectangles collide with nothing, and
      rectangles that only share an edge do not collide. */
  predicate Overlaps(a: Rect, b: Rect) {
    && a.w > 0 && a.h > 0 && b.w > 0 && b.h > 0
    && a.Left() < b.Right() && b.Left() < a.Right()
    && a.Top() < b.Bottom() && b.Top() < a.Bottom()
  }

}

=== FILE: level_sim.dfy ===
/** The per-tick rules of level.py: the spawn policy, score and high-score
    bookkeeping, the edge-triggered speed progression, the platform passes,
    the hand-off to the next level and the hand-off on death. Speeds are in
    half-pixels per tick, so the source's `+= 0.5` is `+ 1` here. */
module LevelSim {

  import opened Wrappers
  import opened Geometry
  import opened Settings
  import opened ModeState
  import opened PlatformSprite
  import PlayerSprite

  /** The exit sprite image is scaled to five tiles whatever width was
      drawn (level.py:37). */
  const ExitWidthInTiles: int := 5

  datatype Level = Level(
    score: int,
    speed: int,
    canIncreaseSpeed: bool,
    platforms: seq<Platform>,
    exits: seq<Platform>,
    player: PlayerSprite.Player,
    paused: bool,
    background: Image
  ) {
    /** What every live level keeps: at most one exit platform, and a
        player that is not standing on any platform. */
    predicate Valid() {
      |exits| <= 1 && player.current.None?
    }
  }

  /** The part of the owning game a level reads and writes: the session
      high score and the game's mode fields. */
  datatype Session = Session(highScore: int, mode: Mode)

  /** The values `random.choice(valid_sizes)` and
      `random.randint(0, WINDOW_WIDTH_IN_TILES - w)` return. */
  datatype Draw = Draw(width: int, column: int)

  predicate ValidSize(w: int) { 2 <= w <= 5 }

  /** A draw the two random calls can produce. */
  predicate DrawOk(cfg: Config, d: Draw) {
    ValidSize(d.width) && 0 <= d.column <= cfg.widthInTiles - d.width
  }

  // ---------------------------------------------------------------- spawning

  /** The spawn policy's test for an exit platform. */
  predicate SpawnsExit(cfg: Config, score: int, exits: seq<Platform>)
    requires cfg.Valid()
  {
    score > 0 && score % cfg.exitAmount == 0 && |exits| == 0
  }

  /** An argument of 0 counts as not supplied, as Python's truthiness
      treats it (level.py:55-61). */
  function ChosenWidth(initW: int, d: Draw): int { if initW != 0 then initW else d.width }

  function ChosenColumn(initX: int, d: Draw): int { if initX != 0 then initX else d.column }

  /** What `spawn_platform` needs to run: the random calls it makes return
      values in their ranges, and an ordinary platform's width has a sprite
      in the asset table (other widths raise `KeyError`). */
  predicate SpawnArgsOk(cfg: Config, score: int, exits: seq<Platform>, initX: int, initW: int, d: Draw)
    requires cfg.Valid()
  {
    && (initW == 0 ==> ValidSize(d.width))
    && (initX == 0 ==> 0 <= d.column <= cfg.widthInTiles - ChosenWidth(initW, d))
    && (!SpawnsExit(cfg, score, exits) ==> ValidSize(ChosenWidth(initW, d)))
  }

  datatype Groups = Groups(platforms: seq<Platform>, exits: seq<Platform>)

  /** The sprite `spawn_platform` creates. */
  function NewSprite(cfg: Config, toExit: bool, initX: int, initY: int, initW: int, d: Draw): Platform
    requires cfg.Valid()
    requires !toExit ==> ValidSize(ChosenWidth(initW, d))
  {
    var x := ChosenColumn(initX, d) * cfg.tileSize;
    var y := if initY != 0 then initY * cfg.tileSize else 0 - cfg.tileSize;
    var tiles := if toExit then ExitWidthInTiles else ChosenWidth(initW, d);
    Spawned(Rect(x, y, tiles * cfg.tileSize, cfg.tileSize))
  }

  lemma MulMono(a: int, b: int, t: nat)
    requires a <= b
    ensures a * t <= b * t
  {
  }

  /** `spawn_platform` on the two sprite groups. */
  function Spawn(cfg: Config, score: int, g: Groups, initX: int, initY: int, initW: int, d: Draw): (r: Groups)
    requires cfg.Valid()
    requires SpawnArgsOk(cfg, score, g.exits, initX, initW, d)
    // exactly one sprite is added, at the end of one group
    ensures |r.platforms| + |r.exits| == |g.platforms| + |g.exits| + 1
    ensures |r.exits| == |g.exits| + 1 <==> score > 0 && score % cfg.exitAmount == 0 && |g.exits| == 0
    ensures SpawnsExit(cfg, score, g.exits) ==> r.platforms == g.platforms && r.exits[..|g.exits|] == g.exits
    ensures !SpawnsExit(cfg, score, g.exits) ==> r.exits == g.exits && r.platforms[..|g.platforms|] == g.platforms
    // the new sprite
    ensures var s := if SpawnsExit(cfg, score, g.exits) then r.exits[|r.exits| - 1] else r.platforms[|r.platforms| - 1];
      && !s.carrying && !s.hasPlayer && s.speed == 0
      && s.rect.x == ChosenColumn(initX, d) * cfg.tileSize
      && s.rect.y == (if initY != 0 then initY * cfg.tileSize else -(cfg.tileSize as int))
      && s.rect.h == cfg.tileSize
      && s.rect.w == (if SpawnsExit(cfg, score, g.exits) then ExitWidthInTiles else ChosenWidth(initW, d)) * cfg.tileSize
      // a drawn column keeps an ordinary platform inside the window
      && (initX == 0 && !SpawnsExit(cfg, score, g.exits) ==>
            0 <= s.rect.Left() && s.rect.Right() <= cfg.widthInTiles * cfg.tileSize)
  {
    var toExit := SpawnsExit(cfg, score, g.exits);
    var s := NewSprite(cfg, toExit, initX, initY, initW, d);
    assert initX == 0 && !toExit ==> 0 <= s.rect.Left() && s.rect.Right() <= cfg.widthInTiles * cfg.tileSize by {
      if initX == 0 && !toExit {
        MulMono(d.column + ChosenWidth(initW, d), cfg.widthInTiles, cfg.tileSize);
        MulMono(0, d.column, cfg.tileSize);
      }
    }
    if toExit then Groups(g.platforms, g.exits + [s]) else Groups(g.platforms + [s], g.exits)
  }

  /** `spawn_platform` on a level. */
  function SpawnPlatform(cfg: Config, lvl: Level, initX: int, initY: int, initW: int, d: Draw): (r: Level)
    requires cfg.Valid()
    requires SpawnArgsOk(cfg, lvl.score, lvl.exits, initX, initW, d)
    ensures var g := Spawn(cfg, lvl.score, Groups(lvl.platforms, lvl.exits), initX, initY, initW, d);
      r == lvl.(platforms := g.platforms, exits := g.exits)
    ensures lvl.Valid() ==> r.Valid()
  {
    var g := Spawn(cfg, lvl.score, Groups(lvl.platforms, lvl.exits), initX, initY, initW, d);
    lvl.(platforms := g.platforms, exits := g.exits)
  }

  /** A spawn with nothing supplied makes both random choices; the platform
      it adds lies within the window whenever it is an ordinary one. */
  lemma RandomSpawnFitsWindow(cfg: Config, lvl: Level, d: Draw)
    requires cfg.Valid() && DrawOk(cfg, d)
    requires !SpawnsExit(cfg, lvl.score, lvl.exits)
    ensures var r := SpawnPlatform(cfg, lvl, 0, 0, 0, d);
      && |r.platforms| == |lvl.platforms| + 1
      && var s := r.platforms[|lvl.platforms|];
      && 0 <= s.rect.Left() && s.rect.Right() <= cfg.widthInTiles * cfg.tileSize
      && s.rect.Top() == -(cfg.tileSize as int)
  {
  }

  // ------------------------------------------------------------ bookkeeping

  /** `pause`. */
  function Pause(lvl: Level): (r: Level)
    ensures r.paused != lvl.paused
    ensures r == lvl.(paused := r.paused)
  {
    lvl.(paused := !lvl.paused)
  }

  lemma PauseTwiceIsIdentity(lvl: Level)
    ensures Pause(Pause(lvl)) == lvl
  {
  }

  datatype Scores = Scores(score: int, highScore: int)

  /** `increment_score`. */
  function IncrementScore(score: int, highScore: int): (r: Scores)
    ensures r.score == score + 1
    ensures r.highScore >= highScore && r.highScore >= r.score
    ensures r.highScore == highScore || r.highScore == r.score
  {
    Scores(score + 1, if score + 1 > highScore then score + 1 else highScore)
  }

  /** The speed handed to the next level: one pixel slower, never below one
      pixel per tick (level.py:99). */
  function NextSpeed(speed: int): (r: int)
    ensures r >= 2
    ensures r == if speed - 2 > 2 then speed - 2 else 2
    ensures speed >= 2 ==> r <= speed
  {
    if speed >= 4 then speed - 2 else 2
  }

  datatype LevelRequest = LevelRequest(score: int, speed: int)

  datatype Advance = Advance(scores: Scores, request: LevelRequest)

  /** `increment_level`: one more point, then a request for the next level
      with the score just reached and the slower speed. */
  function IncrementLevel(score: int, speed: int, highScore: int): (r: Advance)
    ensures r.scores.score == score + 1 && r.scores.highScore >= highScore && r.scores.highScore >= score + 1
    ensures r.scores.highScore == highScore || r.scores.highScore == score + 1
    ensures r.request == LevelRequest(r.scores.score, NextSpeed(speed))
  {
    var sc := IncrementScore(score, highScore);
    Advance(sc, LevelRequest(sc.score, NextSpeed(speed)))
  }

  datatype DeathHandOff = DeathHandOff(session: Session, saveRequested: bool)

  /** `on_player_death`: switch to the game-over mode carrying the score,
      high score and background; ask for the high score to be saved when
      the score has reached it. */
  function OnPlayerDeath(lvl: Level, s: Session): (r: DeathHandOff)
    ensures r.session.mode.done && r.session.mode.next == Some(EndGame)
    ensures r.session.mode.quit == s.mode.quit && r.session.highScore == s.highScore
    ensures r.session.mode.persist.Keys == s.mode.persist.Keys + {"score", "high_score", "bg_image"}
    ensures r.session.mode.persist["score"] == Num(lvl.score)
    ensures r.session.mode.persist["high_score"] == Num(s.highScore)
    ensures r.session.mode.persist["bg_image"] == Picture(lvl.background)
    ensures forall k :: k in s.mode.persist && k !in {"score", "high_score", "bg_image"} ==>
      r.session.mode.persist[k] == s.mode.persist[k]
    ensures r.saveRequested <==> lvl.score >= s.highScore
  {
    var persist := s.mode.persist["score" := Num(lvl.score)]["high_score" := Num(s.highScore)]["bg_image" := Picture(lvl.background)];
    DeathHandOff(s.(mode := s.mode.(next := Some(EndGame), persist := persist, done := true)), lvl.score >= s.highScore)
  }

  // ------------------------------------------------------- speed progression

  datatype Speed = Speed(speed: int, armed: bool)

  /** The speed block of `Level.update` (level.py:80-87). */
  function SpeedStep(cfg: Config, s: Speed, score: int): (r: Speed)
    requires cfg.Valid()
    ensures s.speed >= cfg.maxSpeed ==> r == Speed(s.speed, false)
    ensures s.speed < cfg.maxSpeed && score % cfg.speedEvery != 0 ==> r == Speed(s.speed, true)
    ensures s.speed < cfg.maxSpeed && score % cfg.speedEvery == 0 ==>
      !r.armed && (r.speed == s.speed + 1 <==> s.armed) && (r.speed == s.speed <==> !s.armed)
  {
    if s.speed >= cfg.maxSpeed then s.(armed := false)
    else if score % cfg.speedEvery == 0 then
      if s.armed then Speed(s.speed + 1, false) else s
    else s.(armed := true)
  }

  /** The speed after one speed block per score in `scores`. */
  function SpeedAfter(cfg: Config, s: Speed, scores: seq<int>): Speed
    requires cfg.Valid()
    decreases |scores|
  {
    if |scores| == 0 then s else SpeedAfter(cfg, SpeedStep(cfg, s, scores[0]), scores[1..])
  }

  /** Speed never decreases, rises by at most half a pixel per tick, and
      never passes the maximum from below it. */
  lemma {:induction false} SpeedMonotone(cfg: Config, s: Speed, scores: seq<int>)
    requires cfg.Valid()
    ensures s.speed <= SpeedAfter(cfg, s, scores).speed <= s.speed + |scores|
    ensures s.speed <= cfg.maxSpeed ==> SpeedAfter(cfg, s, scores).speed <= cfg.maxSpeed
    decreases |scores|
  {
    if |scores| > 0 {
      SpeedMonotone(cfg, SpeedStep(cfg, s, scores[0]), scores[1..]);
    }
  }

  /** The edge trigger: over a run of ticks whose scores are all multiples
      of the threshold, speed rises at most once, and not at all when the
      flag starts disarmed (as it does in a new level). */
  lemma {:induction false} OneIncreasePerBand(cfg: Config, s: Speed, scores: seq<int>)
    requires cfg.Valid()
    requires forall i :: 0 <= i < |scores| ==> scores[i] % cfg.speedEvery == 0
    ensures SpeedAfter(cfg, s, scores).speed <= s.speed + (if s.armed then 1 else 0)
    decreases |scores|
  {
    if |scores| > 0 {
      var s1 := SpeedStep(cfg, s, scores[0]);
      assert !s1.armed;
      OneIncreasePerBand(cfg, s1, scores[1..]);
    }
  }

  /** Entering a band from a score off the multiple, below the maximum,
      gives exactly one increase however long the band lasts. */
  lemma ExactlyOneIncreasePerBand(cfg: Config, s: Speed, off: int, band: seq<int>)
    requires cfg.Valid()
    requires s.speed < cfg.maxSpeed && off % cfg.speedEvery != 0
    requires |band| > 0 && forall i :: 0 <= i < |band| ==> band[i] % cfg.speedEvery == 0
    ensures SpeedAfter(cfg, s, [off] + band).speed == s.speed + 1
  {
    var s1 := SpeedStep(cfg, s, off);
    var s2 := SpeedStep(cfg, s1, band[0]);
    assert ([off] + band)[1..] == band;
    assert SpeedAfter(cfg, s, [off] + band) == SpeedAfter(cfg, s2, band[1..]);
    OneIncreasePerBand(cfg, s2, band[1..]);
    SpeedMonotone(cfg, s2, band[1..]);
  }

  // --------------------------------------------------------- platform passes

  /** The number of platforms carrying the player. */
  function CountCarrying(ps: seq<Platform>): nat
    decreases |ps|
  {
    if |ps| == 0 then 0 else (if ps[0].carrying then 1 else 0) + CountCarrying(ps[1..])
  }

  /** How far the platforms carrying the player move it in one pass. */
  function CarriedDistance(ps: seq<Platform>, speed: int): int
    decreases |ps|
  {
    if |ps| == 0 then 0 else (if ps[0].carrying then speed else 0) + CarriedDistance(ps[1..], speed)
  }

  lemma {:induction false} CarriedDistanceIsSpeedTimesCount(ps: seq<Platform>, speed: int)
    ensures CarriedDistance(ps, speed) == speed * CountCarrying(ps)
    decreases |ps|
  {
    if |ps| > 0 {
      CarriedDistanceIsSpeedTimesCount(ps[1..], speed);
      var c := if ps[0].carrying then 1 else 0;
      calc {
        CarriedDistance(ps, speed);
        speed * c + speed * CountCarrying(ps[1..]);
        { assert speed * c + speed * CountCarrying(ps[1..]) == speed * (c + CountCarrying(ps[1..])); }
        speed * CountCarrying(ps);
      }
    }
  }

  /** The number of platforms whose update fires `on_land`. */
  function CountLandings(ps: seq<Platform>): nat
    decreases |ps|
  {
    if |ps| == 0 then 0 else (if ps[0].carrying && !ps[0].hasPlayer then 1 else 0) + CountLandings(ps[1..])
  }

  /** The state threaded through `self.platforms.update(...)`: the score
      and high score the callbacks change, the survivors, the platforms
      spawned into the ordinary group, the exit group, and how far the
      player has been carried. */
  datatype Pass = Pass(score: int, highScore: int, kept: seq<Platform>, spawned: seq<Platform>, exits: seq<Platform>, carried: int)

  function Max(a: int, b: int): int { if a >= b then a else b }

  /** `a` is an initial segment of `b`. */
  predicate Prefix<T(==)>(a: seq<T>, b: seq<T>) {
    |a| <= |b| && b[..|a|] == a
  }

  /** Every platform that survived its update is still on screen. */
  predicate OnScreen(cfg: Config, ps: seq<Platform>) {
    forall i :: 0 <= i < |ps| ==> ps[i].rect.Top() <= cfg.windowHeight
  }

  lemma AppendAssoc<T>(a: seq<T>, b: seq<T>, c: seq<T>)
    ensures (a + b) + c == a + (b + c)
  {
  }

  /** What one platform leaves in its group after its update: itself,
      moved, unless the update killed it. */
  function SurvivorOf(cfg: Config, speed: int, p: Platform): seq<Platform> {
    var st := Update(p, speed, cfg.windowHeight);
    if st.killed then [] else [st.platform]
  }

  /** The platforms a pass keeps, in group order: each platform of `todo`
      after its update, unless that update killed it. */
  function Survivors(cfg: Config, speed: int, todo: seq<Platform>): (r: seq<Platform>)
    ensures |r| <= |todo|
    ensures OnScreen(cfg, r)
    decreases |todo|
  {
    if |todo| == 0 then []
    else
      SurvivorOf(cfg, speed, todo[0]) + Survivors(cfg, speed, todo[1..])
  }

  /** The position in the group of the platform the i-th survivor came
      from. */
  lemma {:induction false} SurvivorSource(cfg: Config, speed: int, todo: seq<Platform>, i: nat) returns (j: nat)
    requires i < |Survivors(cfg, speed, todo)|
    ensures j < |todo|
    ensures Survivors(cfg, speed, todo)[i].rect == todo[j].rect.ShiftY(speed)
    ensures Survivors(cfg, speed, todo)[i].speed == speed
    decreases |todo|
  {
    var st := Update(todo[0], speed, cfg.windowHeight);
    var head := if st.killed then [] else [st.platform];
    var rest := Survivors(cfg, speed, todo[1..]);
    assert Survivors(cfg, speed, todo) == head + rest;
    if i < |head| {
      j := 0;
    } else {
      var k := SurvivorSource(cfg, speed, todo[1..], i - |head|);
      j := k + 1;
    }
  }

  /** Each survivor is a platform of the group moved down by exactly the
      speed; when no platform is killed, every one survives. */
  lemma {:induction false} SurvivorsMovedBySpeed(cfg: Config, speed: int, todo: seq<Platform>)
    ensures var r := Survivors(cfg, speed, todo);
      forall i :: 0 <= i < |r| ==>
        exists j :: 0 <= j < |todo| && r[i].rect == todo[j].rect.ShiftY(speed) && r[i].speed == speed
    ensures (forall j :: 0 <= j < |todo| ==> !Update(todo[j], speed, cfg.windowHeight).killed)
      ==> |Survivors(cfg, speed, todo)| == |todo|
    decreases |todo|
  {
    if |todo| > 0 {
      SurvivorsMovedBySpeed(cfg, speed, todo[1..]);
      var r := Survivors(cfg, speed, todo);
      var rest := Survivors(cfg, speed, todo[1..]);
      var st := Update(todo[0], speed, cfg.windowHeight);
      var head := if st.killed then [] else [st.platform];
      assert r == head + rest;
      forall i | 0 <= i < |r|
        ensures exists j :: 0 <= j < |todo| && r[i].rect == todo[j].rect.ShiftY(speed) && r[i].speed == speed
      {
        var j := SurvivorSource(cfg, speed, todo, i);
      }
      if forall j :: 0 <= j < |todo| ==> !Update(todo[j], speed, cfg.windowHeight).killed {
        assert !st.killed;
        assert forall j :: 0 <= j < |todo[1..]| ==> todo[1..][j] == todo[j + 1];
      }
    }
  }

  /** One platform of the pass: update it, fire `on_land` (a point), then
      `on_kill` (a replacement spawned with draw `d`) and removal. */
  function PassStep(cfg: Config, speed: int, p: Platform, d: Draw, acc: Pass): (r: Pass)
    requires cfg.Valid() && DrawOk(cfg, d)
    requires |acc.exits| <= 1 && OnScreen(cfg, acc.kept)
    ensures |r.kept| + |r.spawned| + |r.exits| == |acc.kept| + |acc.spawned| + |acc.exits| + 1
    ensures |r.exits| <= 1 && Prefix(acc.exits, r.exits)
    ensures OnScreen(cfg, r.kept)
    ensures r.score == acc.score + (if p.carrying && !p.hasPlayer then 1 else 0)
    ensures r.highScore >= acc.highScore
    ensures acc.highScore >= acc.score ==> r.highScore == Max(acc.highScore, r.score)
    ensures r.carried == acc.carried + (if p.carrying then speed else 0)
    ensures r.kept == acc.kept + SurvivorOf(cfg, speed, p)
  {
    var st := Update(p, speed, cfg.windowHeight);
    var sc := if st.landed then IncrementScore(acc.score, acc.highScore) else Scores(acc.score, acc.highScore);
    if st.killed then
      var g := Spawn(cfg, sc.score, Groups(acc.spawned, acc.exits), 0, 0, 0, d);
      Pass(sc.score, sc.highScore, acc.kept, g.platforms, g.exits, acc.carried + st.carried)
    else
      Pass(sc.score, sc.highScore, acc.kept + [st.platform], acc.spawned, acc.exits, acc.carried + st.carried)
  }

  /** `self.platforms.update(on_kill=spawn_platform, on_land=increment_score,
      set_speed=speed)` over the snapshot `todo` of the group. A killed
      platform spawns a replacement with `draws[i]` and is removed; pygame
      keeps the survivors in order and appends the new sprites after them.
      Each platform fires `on_land` at most once, so the score rises by the
      number of platforms landed on for the first time. */
  function PlatformPass(cfg: Config, speed: int, todo: seq<Platform>, draws: seq<Draw>, acc: Pass): (r: Pass)
    requires cfg.Valid()
    requires |draws| >= |todo|
    requires forall i :: 0 <= i < |draws| ==> DrawOk(cfg, draws[i])
    requires |acc.exits| <= 1 && OnScreen(cfg, acc.kept)
    ensures |r.kept| + |r.spawned| + |r.exits| == |acc.kept| + |acc.spawned| + |acc.exits| + |todo|
    ensures |r.exits| <= 1 && Prefix(acc.exits, r.exits)
    ensures OnScreen(cfg, r.kept)
    ensures r.score == acc.score + CountLandings(todo)
    ensures r.highScore >= acc.highScore
    ensures acc.highScore >= acc.score ==> r.highScore == Max(acc.highScore, r.score)
    ensures r.carried == acc.carried + CarriedDistance(todo, speed)
    decreases |todo|
  {
    if |todo| == 0 then acc
    else
      assert DrawOk(cfg, draws[0]);
      var acc1 := PassStep(cfg, speed, todo[0], draws[0], acc);
      var r := PlatformPass(cfg, speed, todo[1..], draws[1..], acc1);
      assert Prefix(acc.exits, r.exits) by {
        assert r.exits[..|acc.exits|] == r.exits[..|acc1.exits|][..|acc.exits|];
      }
      r
  }

  /** The pass keeps exactly the survivors of the group, moved and in
      their old order, after the survivors it already held. */
  /** A pass over a non-empty group is its first step followed by the pass
      over the rest, whose requirements that step keeps. */
  lemma PassUnfold(cfg: Config, speed: int, todo: seq<Platform>, draws: seq<Draw>, acc: Pass)
    requires cfg.Valid()
    requires 0 < |todo| <= |draws|
    requires forall i :: 0 <= i < |draws| ==> DrawOk(cfg, draws[i])
    requires |acc.exits| <= 1 && OnScreen(cfg, acc.kept)
    ensures DrawOk(cfg, draws[0])
    ensures var acc1 := PassStep(cfg, speed, todo[0], draws[0], acc);
      && |acc1.exits| <= 1 && OnScreen(cfg, acc1.kept)
      && (forall i :: 0 <= i < |draws[1..]| ==> DrawOk(cfg, draws[1..][i]))
      && PlatformPass(cfg, speed, todo, draws, acc) == PlatformPass(cfg, speed, todo[1..], draws[1..], acc1)
  {
    assert DrawOk(cfg, draws[0]);
    var more := draws[1..];
    forall i | 0 <= i < |more| ensures DrawOk(cfg, more[i]) {
      assert more[i] == draws[i + 1];
    }
  }

  /** The pass keeps exactly the survivors of the group, moved and in
      their old order, after the survivors it already held. */
  lemma {:induction false} PassKeepsSurvivors(cfg: Config, speed: int, todo: seq<Platform>, draws: seq<Draw>, acc: Pass)
    requires cfg.Valid()
    requires |draws| >= |todo|
    requires forall i :: 0 <= i < |draws| ==> DrawOk(cfg, draws[i])
    requires |acc.exits| <= 1 && OnScreen(cfg, acc.kept)
    ensures PlatformPass(cfg, speed, todo, draws, acc).kept == acc.kept + Survivors(cfg, speed, todo)
    decreases |todo|
  {
    if |todo| > 0 {
      PassUnfold(cfg, speed, todo, draws, acc);
      var acc1 := PassStep(cfg, speed, todo[0], draws[0], acc);
      PassKeepsSurvivors(cfg, speed, todo[1..], draws[1..], acc1);
      var head := SurvivorOf(cfg, speed, todo[0]);
      var tail := Survivors(cfg, speed, todo[1..]);
      calc {
        PlatformPass(cfg, speed, todo, draws, acc).kept;
        PlatformPass(cfg, speed, todo[1..], draws[1..], acc1).kept;
        (acc.kept + head) + tail;
        { AppendAssoc(acc.kept, head, tail); }
        acc.kept + (head + tail);
      }
    }
  }

  /** A sprite as `spawn_platform()` with no arguments makes it: nobody
      on it, speed 0, one tile high, its top one tile above the window and
      its left edge at a drawn column. */
  predicate IsReplacement(cfg: Config, p: Platform) {
    && !p.carrying && !p.hasPlayer && p.speed == 0
    && p.rect.Top() == -(cfg.tileSize as int) && p.rect.h == cfg.tileSize
    && 0 <= p.rect.Left()
  }

  /** An ordinary replacement also lies inside the window. */
  predicate IsOrdinaryReplacement(cfg: Config, p: Platform) {
    IsReplacement(cfg, p) && p.rect.Right() <= cfg.widthInTiles * cfg.tileSize
  }

  /** One platform of the pass appends at most its own replacement, and
      that replacement is a fresh sprite. */
  lemma PassStepReplacements(cfg: Config, speed: int, p: Platform, d: Draw, acc: Pass)
    requires cfg.Valid() && DrawOk(cfg, d)
    requires |acc.exits| <= 1 && OnScreen(cfg, acc.kept)
    ensures var r := PassStep(cfg, speed, p, d, acc);
      && Prefix(acc.spawned, r.spawned)
      && (forall i :: |acc.spawned| <= i < |r.spawned| ==> IsOrdinaryReplacement(cfg, r.spawned[i]))
      && (forall i :: |acc.exits| <= i < |r.exits| ==> IsReplacement(cfg, r.exits[i]))
  {
    var st := Update(p, speed, cfg.windowHeight);
    var sc := if st.landed then IncrementScore(acc.score, acc.highScore) else Scores(acc.score, acc.highScore);
    var r := PassStep(cfg, speed, p, d, acc);
    if st.killed {
      var g := Spawn(cfg, sc.score, Groups(acc.spawned, acc.exits), 0, 0, 0, d);
      assert r.spawned == g.platforms && r.exits == g.exits;
      MulMono(0, d.column, cfg.tileSize);
    } else {
      assert r.spawned == acc.spawned && r.exits == acc.exits;
    }
  }

  /** The platforms a pass appends to the ordinary group, and the exit it
      may add, are all replacements made by `spawn_platform()` for killed
      platforms: none of them carries the player. */
  lemma {:induction false} PassReplacements(cfg: Config, speed: int, todo: seq<Platform>, draws: seq<Draw>, acc: Pass)
    requires cfg.Valid()
    requires |draws| >= |todo|
    requires forall i :: 0 <= i < |draws| ==> DrawOk(cfg, draws[i])
    requires |acc.exits| <= 1 && OnScreen(cfg, acc.kept)
    ensures var r := PlatformPass(cfg, speed, todo, draws, acc);
      && Prefix(acc.spawned, r.spawned)
      && (forall i :: |acc.spawned| <= i < |r.spawned| ==> IsOrdinaryReplacement(cfg, r.spawned[i]))
      && (forall i :: |acc.exits| <= i < |r.exits| ==> IsReplacement(cfg, r.exits[i]))
    decreases |todo|
  {
    if |todo| > 0 {
      PassUnfold(cfg, speed, todo, draws, acc);
      var acc1 := PassStep(cfg, speed, todo[0], draws[0], acc);
      PassStepReplacements(cfg, speed, todo[0], draws[0], acc);
      var r := PlatformPass(cfg, speed, todo[1..], draws[1..], acc1);
      PassReplacements(cfg, speed, todo[1..], draws[1..], acc1);
      assert r.spawned[..|acc.spawned|] == r.spawned[..|acc1.spawned|][..|acc.spawned|];
      forall i | |acc.spawned| <= i < |r.spawned|
        ensures IsOrdinaryReplacement(cfg, r.spawned[i])
      {
        if i < |acc1.spawned| {
          assert r.spawned[i] == acc1.spawned[i];
        }
      }
      assert Prefix(acc1.exits, r.exits);
      forall i | |acc.exits| <= i < |r.exits|
        ensures IsReplacement(cfg, r.exits[i])
      {
        if i < |acc1.exits| {
          assert r.exits[i] == acc1.exits[i];
        }
      }
    }
  }

  datatype ExitPassResult = ExitPassResult(exits: seq<Platform>, fired: bool)

  /** `self.exit_platforms.update(on_land=increment_level, set_speed=speed)`
      on a group of at most one exit platform. */
  function ExitPass(es: seq<Platform>, speed: int): (r: ExitPassResult)
    requires |es| <= 1
    ensures |r.exits| == |es|
    ensures forall i :: 0 <= i < |es| ==> r.exits[i] == ExitUpdate(es[i], speed).platform
    ensures r.fired <==> |es| == 1 && es[0].carrying
  {
    if |es| == 0 then ExitPassResult([], false)
    else
      var st := ExitUpdate(es[0], speed);
      ExitPassResult([st.platform], st.fired)
  }

  // ------------------------------------------------------------------- tick

  datatype TickOutcome = TickOutcome(
    level: Level,
    session: Session,
    died: bool,
    saveRequested: bool,
    advance: Option<LevelRequest>
  )

  /** The level and the game right after `self.player.update()`, which
      calls `on_player_death` when the player has fallen out of the window. */
  datatype PlayerPhase = PlayerPhase(level: Level, death: DeathHandOff, died: bool)

  function AfterPlayer(cfg: Config, lvl: Level, s: Session): (r: PlayerPhase)
    requires cfg.Valid() && lvl.Valid()
    ensures var pu := PlayerSprite.Update(cfg, lvl.player, lvl.platforms, lvl.exits);
      && r.level == lvl.(player := pu.player, platforms := pu.platforms, exits := pu.exits)
      && r.died == pu.died
    ensures r.level.Valid()
    ensures |r.level.platforms| == |lvl.platforms| && |r.level.exits| == |lvl.exits|
    ensures r.died ==> r.death == OnPlayerDeath(r.level, s)
    ensures !r.died ==> r.death == DeathHandOff(s, false)
  {
    var pu := PlayerSprite.Update(cfg, lvl.player, lvl.platforms, lvl.exits);
    var moved := lvl.(player := pu.player, platforms := pu.platforms, exits := pu.exits);
    PlayerPhase(moved, if pu.died then OnPlayerDeath(moved, s) else DeathHandOff(s, false), pu.died)
  }

  /** `Level.update`: the player, the speed block, the ordinary platforms,
      then the exit platform. `draws[i]` is what the random calls return if
      the i-th platform of the group is killed this tick. */
  function Tick(cfg: Config, lvl: Level, s: Session, draws: seq<Draw>): (r: TickOutcome)
    requires cfg.Valid() && lvl.Valid()
    requires |draws| >= |lvl.platforms|
    requires forall i :: 0 <= i < |draws| ==> DrawOk(cfg, draws[i])
    ensures r.level.Valid()
    // every killed platform is replaced by exactly one new sprite
    ensures |r.level.platforms| + |r.level.exits| == |lvl.platforms| + |lvl.exits|
    ensures |lvl.exits| == 1 ==> |r.level.exits| == 1
  {
    var ph := AfterPlayer(cfg, lvl, s);
    var sp := SpeedStep(cfg, Speed(lvl.speed, lvl.canIncreaseSpeed), lvl.score);
    var pass := PlatformPass(cfg, sp.speed, ph.level.platforms, draws, Pass(lvl.score, s.highScore, [], [], ph.level.exits, 0));
    var player := ph.level.player.(rect := ph.level.player.rect.ShiftY(pass.carried));
    var ex := ExitPass(pass.exits, sp.speed);
    var after := Level(pass.score, sp.speed, sp.armed, pass.kept + pass.spawned, ex.exits, player, lvl.paused, lvl.background);
    if ex.fired then
      var adv := IncrementLevel(after.score, after.speed, pass.highScore);
      TickOutcome(after.(score := adv.scores.score), ph.death.session.(highScore := adv.scores.highScore),
                  ph.died, ph.death.saveRequested, Some(adv.request))
    else
      TickOutcome(after, ph.death.session.(highScore := pass.highScore), ph.died, ph.death.saveRequested, None)
  }

  /** Score and high score only grow in a tick, the high score stays at or
      above the score, and the speed follows the speed block. */
  lemma TickBookkeeping(cfg: Config, lvl: Level, s: Session, draws: seq<Draw>)
    requires cfg.Valid() && lvl.Valid()
    requires |draws| >= |lvl.platforms|
    requires forall i :: 0 <= i < |draws| ==> DrawOk(cfg, draws[i])
    ensures var r := Tick(cfg, lvl, s, draws);
      && r.level.score >= lvl.score
      && r.session.highScore >= s.highScore
      && (s.highScore >= lvl.score ==> r.session.highScore >= r.level.score)
      && r.level.speed == SpeedStep(cfg, Speed(lvl.speed, lvl.canIncreaseSpeed), lvl.score).speed >= lvl.speed
      && r.level.paused == lvl.paused && r.level.background == lvl.background
  {
  }

  /** A tick runs the speed block exactly once: the level's speed and its
      `can_increase_speed` flag afterwards are one `SpeedStep` from those
      before, at the score the tick began with. So the speed lemmas over
      `SpeedAfter` apply to the speed blocks of successive ticks. */
  lemma TickSpeed(cfg: Config, lvl: Level, s: Session, draws: seq<Draw>)
    requires cfg.Valid() && lvl.Valid()
    requires |draws| >= |lvl.platforms|
    requires forall i :: 0 <= i < |draws| ==> DrawOk(cfg, draws[i])
    ensures var r := Tick(cfg, lvl, s, draws);
      Speed(r.level.speed, r.level.canIncreaseSpeed) == SpeedStep(cfg, Speed(lvl.speed, lvl.canIncreaseSpeed), lvl.score)
  {
  }

  /** The score rises by exactly one point per first landing, plus one
      when the exit platform fires; a high score that was at or above the
      score ends as the larger of itself and the new score. */
  lemma TickScore(cfg: Config, lvl: Level, s: Session, draws: seq<Draw>)
    requires cfg.Valid() && lvl.Valid()
    requires |draws| >= |lvl.platforms|
    requires forall i :: 0 <= i < |draws| ==> DrawOk(cfg, draws[i])
    ensures var r := Tick(cfg, lvl, s, draws);
      && r.level.score == lvl.score
           + CountLandings(PlayerSprite.Update(cfg, lvl.player, lvl.platforms, lvl.exits).platforms)
           + (if r.advance.Some? then 1 else 0)
      && (s.highScore >= lvl.score ==> r.session.highScore == Max(s.highScore, r.level.score))
  {
  }

  /** The ordinary group after a tick starts with the platforms that
      survived their update, moved and in their old order; the
      replacements spawned for killed platforms follow them. */
  lemma TickKeepsSurvivors(cfg: Config, lvl: Level, s: Session, draws: seq<Draw>)
    requires cfg.Valid() && lvl.Valid()
    requires |draws| >= |lvl.platforms|
    requires forall i :: 0 <= i < |draws| ==> DrawOk(cfg, draws[i])
    ensures var pu := PlayerSprite.Update(cfg, lvl.player, lvl.platforms, lvl.exits);
      var r := Tick(cfg, lvl, s, draws);
      var kept := Survivors(cfg, r.level.speed, pu.platforms);
      && |kept| <= |r.level.platforms| && r.level.platforms[..|kept|] == kept
      && forall i :: |kept| <= i < |r.level.platforms| ==> IsOrdinaryReplacement(cfg, r.level.platforms[i])
  {
    var pu := PlayerSprite.Update(cfg, lvl.player, lvl.platforms, lvl.exits);
    var r := Tick(cfg, lvl, s, draws);
    var kept := Survivors(cfg, r.level.speed, pu.platforms);
    var acc := Pass(lvl.score, s.highScore, [], [], pu.exits, 0);
    PassKeepsSurvivors(cfg, r.level.speed, pu.platforms, draws, acc);
    PassReplacements(cfg, r.level.speed, pu.platforms, draws, acc);
    var pass := PlatformPass(cfg, r.level.speed, pu.platforms, draws, acc);
    assert r.level.platforms == pass.kept + pass.spawned;
    assert r.level.platforms[..|kept|] == kept;
    forall i | |kept| <= i < |r.level.platforms|
      ensures IsOrdinaryReplacement(cfg, r.level.platforms[i])
    {
      assert r.level.platforms[i] == pass.spawned[i - |kept|];
    }
  }

  /** The death hand-off happens within the tick in which the player's top
      edge ends below the window, before any platform moves, and carries the
      score the level had when the tick began; otherwise the game's mode is
      untouched. */
  lemma TickDeathHandOff(cfg: Config, lvl: Level, s: Session, draws: seq<Draw>)
    requires cfg.Valid() && lvl.Valid()
    requires |draws| >= |lvl.platforms|
    requires forall i :: 0 <= i < |draws| ==> DrawOk(cfg, draws[i])
    ensures var r := Tick(cfg, lvl, s, draws);
      && (r.died <==> PlayerSprite.Update(cfg, lvl.player, lvl.platforms, lvl.exits).player.rect.Top() > cfg.windowHeight)
      && (r.died ==>
            && r.session.mode.done && r.session.mode.next == Some(EndGame)
            && "score" in r.session.mode.persist && r.session.mode.persist["score"] == Num(lvl.score)
            && (r.saveRequested <==> lvl.score >= s.highScore))
      && (!r.died ==> r.session.mode == s.mode && !r.saveRequested)
  {
  }

  /** A level asks for the next one exactly when its exit platform carries
      the player at the end of the tick; the request carries the score
      after the extra point and a speed one pixel lower, at least one. */
  lemma TickAdvance(cfg: Config, lvl: Level, s: Session, draws: seq<Draw>)
    requires cfg.Valid() && lvl.Valid()
    requires |draws| >= |lvl.platforms|
    requires forall i :: 0 <= i < |draws| ==> DrawOk(cfg, draws[i])
    ensures var r := Tick(cfg, lvl, s, draws);
      && (r.advance.Some? <==> |r.level.exits| == 1 && r.level.exits[0].carrying)
      && (r.advance.Some? ==>
            && r.advance.value.score == r.level.score
            && r.advance.value.speed == NextSpeed(r.level.speed) >= 2)
  {
  }

  /** The player moves with every platform it is carried by, by that
      platform's displacement; the exit platform never moves it. */
  lemma CarriedByPlatforms(cfg: Config, lvl: Level, s: Session, draws: seq<Draw>)
    requires cfg.Valid() && lvl.Valid()
    requires |draws| >= |lvl.platforms|
    requires forall i :: 0 <= i < |draws| ==> DrawOk(cfg, draws[i])
    ensures var pu := PlayerSprite.Update(cfg, lvl.player, lvl.platforms, lvl.exits);
      var r := Tick(cfg, lvl, s, draws);
      r.level.player == pu.player.(rect := pu.player.rect.ShiftY(r.level.speed * CountCarrying(pu.platforms)))
  {
    var pu := PlayerSprite.Update(cfg, lvl.player, lvl.platforms, lvl.exits);
    CarriedDistanceIsSpeedTimesCount(pu.platforms, Tick(cfg, lvl, s, draws).level.speed);
  }

  // ----------------------------------------------------------- construction

  /** The three starting platforms of `Level.__init__` and the player on
      top of the middle one. No draw is used: width and column are given. */
  function NewLevel(cfg: Config, score: int, speed: int, background: Image): (lvl: Level)
    requires cfg.Valid()
    ensures lvl.Valid()
    ensures lvl.score == score && lvl.speed == speed && lvl.background == background
    ensures !lvl.canIncreaseSpeed && !lvl.paused
    ensures |lvl.platforms| + |lvl.exits| == 3
    ensures |lvl.exits| == 1 <==> score > 0 && score % cfg.exitAmount == 0
    ensures lvl.player.rect.Top() == 2 * cfg.tileSize && !lvl.player.jumping
  {
    var unused := Draw(4, 0);
    var g0 := Spawn(cfg, score, Groups([], []), 3, 0, 4, unused);
    var g1 := Spawn(cfg, score, g0, 4, 3, 4, unused);
    var g2 := Spawn(cfg, score, g1, 5, 6, 4, unused);
    var player := PlayerSprite.Spawn(cfg, g2.platforms[1].rect.x, cfg.tileSize * 2);
    Level(score, speed, false, g2.platforms, g2.exits, player, false, background)
  }

  /** The first tick of a level never raises the speed: the flag starts
      disarmed. */
  lemma NoIncreaseOnFirstTick(cfg: Config, score: int, speed: int, background: Image, s: Session, draws: seq<Draw>)
    requires cfg.Valid()
    requires |draws| >= 3
    requires forall i :: 0 <= i < |draws| ==> DrawOk(cfg, draws[i])
    ensures Tick(cfg, NewLevel(cfg, score, speed, background), s, draws).level.speed == speed
  {
  }

}

=== FILE: mode_state.dfy ===
/** The base game mode of state.py: the `done`, `quit`, `next_state` and
    `persist` fields every mode carries, and the quit handling shared by all
    modes. */
module ModeState {

  import opened Wrappers

  /** An opaque background image handle. */
  datatype Image = Image(id: nat)

  /** The values the game stores in the persistent dictionary. */
  datatype Value = Num(n: int) | Picture(image: Image)

  /** The mode identifiers the source spells "SPLASH", "GAMEPLAY" and
      "ENDGAME". */
  datatype ModeName = Splash | Gameplay | EndGame

  datatype Key = Escape | OtherKey(code: int)

  datatype Event = QuitEvent | KeyDown(key: Key) | KeyUp(key: Key) | OtherEvent

  datatype Mode = Mode(done: bool, quit: bool, next: Option<ModeName>, persist: map<string, Value>)

  /** `_State.__init__`. */
  function Fresh(): (m: Mode)
    ensures !m.done && !m.quit && m.next == None && |m.persist| == 0
  {
    Mode(false, false, None, map[])
  }

  /** `startup` replaces the persistent dictionary and nothing else. */
  function Startup(m: Mode, persistent: map<string, Value>): (r: Mode)
    ensures r.persist == persistent
    ensures r.done == m.done && r.quit == m.quit && r.next == m.next
  {
    m.(persist := persistent)
  }

  /** The events that ask the program to stop: the window's close event, or
      releasing ESCAPE. */
  predicate RequestsQuit(e: Event) {
    e == QuitEvent || e == KeyUp(Escape)
  }

  /** `_State.get_event`. */
  function GetEvent(m: Mode, e: Event): (r: Mode)
    ensures r.quit <==> m.quit || RequestsQuit(e)
    ensures r.done == m.done && r.next == m.next && r.persist == m.persist
  {
    match e
    case QuitEvent => m.(quit := true)
    case KeyUp(k) => if k == Escape then m.(quit := true) else m
    case _ => m
  }

  /** The base mode handling a queue of events in order. */
  function HandleAll(m: Mode, events: seq<Event>): Mode
    decreases |events|
  {
    if |events| == 0 then m else HandleAll(GetEvent(m, events[0]), events[1..])
  }

  /** The base mode never switches mode on its own: whatever events arrive,
      `done`, `next_state` and `persist` stay as they were, and `quit` ends up
      set exactly when it was set already or some event asked to quit. */
  lemma {:induction false} BaseModeOnlyQuits(m: Mode, events: seq<Event>)
    ensures var r := HandleAll(m, events);
      && r.done == m.done && r.next == m.next && r.persist == m.persist
      && (r.quit <==> m.quit || exists i :: 0 <= i < |events| && RequestsQuit(events[i]))
    decreases |events|
  {
    if |events| > 0 {
      var m1 := GetEvent(m, events[0]);
      BaseModeOnlyQuits(m1, events[1..]);
      var r := HandleAll(m, events);
      if r.quit && !m.quit && !RequestsQuit(events[0]) {
        var j :| 0 <= j < |events[1..]| && RequestsQuit(events[1..][j]);
        assert RequestsQuit(events[j + 1]);
      }
      if exists i :: 0 <= i < |events| && RequestsQuit(events[i]) {
        var i :| 0 <= i < |events| && RequestsQuit(events[i]);
        if i > 0 {
          assert RequestsQuit(events[1..][i - 1]);
        }
      }
    }
  }

}

=== FILE: platform_sprite.dfy ===
/** The platform sprites of platform.py. An ordinary platform moves down by
    the level's speed each tick, carries the player that once landed on it,
    fires its landing callback once, and is killed when it leaves the bottom
    of the window. An exit platform moves the same way, is never killed,
    carries nobody, and fires its callback on every tick a player is set. */
module PlatformSprite {

  import opened Geometry

  /** `carrying` models the `player` back-reference (there is one player,
      so a flag suffices); `hasPlayer` is the one-shot landing guard. */
  datatype Platform = Platform(rect: Rect, carrying: bool, speed: int, hasPlayer: bool)

  /** `Platform.__init__` with the default `player=None`. */
  function Spawned(rect: Rect): (p: Platform)
    ensures p.rect == rect
    ensures !p.carrying && !p.hasPlayer && p.speed == 0
  {
    Platform(rect, false, 0, false)
  }

  /** What one `Platform.update` does: the platform's new state, how far it
      moved the attached player, and whether it called `on_land` and
      `on_kill`. */
  datatype Step = Step(platform: Platform, carried: int, landed: bool, killed: bool)

  /** `Platform.update(on_kill, on_land, set_speed)`. */
  function Update(p: Platform, setSpeed: int, windowHeight: int): (s: Step)
    ensures s.platform.speed == setSpeed
    ensures s.platform.rect == p.rect.ShiftY(setSpeed)
    ensures s.platform.carrying == p.carrying
    ensures s.carried == if p.carrying then s.platform.rect.y - p.rect.y else 0
    ensures s.landed <==> p.carrying && !p.hasPlayer
    ensures s.platform.hasPlayer <==> p.hasPlayer || p.carrying
    ensures s.killed <==> s.platform.rect.Top() > windowHeight
  {
    var moved := p.(speed := setSpeed, rect := p.rect.ShiftY(setSpeed));
    var carried := if moved.carrying then setSpeed else 0;
    var landed := moved.carrying && !moved.hasPlayer;
    var after := if landed then moved.(hasPlayer := true) else moved;
    Step(after, carried, landed, after.rect.Top() > windowHeight)
  }

  /** What one `ExitPlatform.update` does. It reports no carried distance:
      the exit platform never moves the player. */
  datatype ExitStep = ExitStep(platform: Platform, fired: bool)

  /** `ExitPlatform.update(on_land, set_speed)`. */
  function ExitUpdate(p: Platform, setSpeed: int): (s: ExitStep)
    ensures s.platform.speed == setSpeed
    ensures s.platform.rect == p.rect.ShiftY(setSpeed)
    ensures s.platform.carrying == p.carrying && s.platform.hasPlayer == p.hasPlayer
    ensures s.fired <==> p.carrying
  {
    ExitStep(p.(speed := setSpeed, rect := p.rect.ShiftY(setSpeed)), p.carrying)
  }

  /** One tick in the life of an ordinary platform: the player's collision
      pass may attach the player (`attach`), then the platform updates. */
  datatype LifeTick = LifeTick(attach: bool, speed: int)

  /** How many times `on_land` fires while an ordinary platform lives
      through the given ticks; updates stop once it has been killed. */
  function Landings(p: Platform, ticks: seq<LifeTick>, windowHeight: int): nat
    decreases |ticks|
  {
    if |ticks| == 0 then 0
    else
      var q := if ticks[0].attach then p.(carrying := true) else p;
      var s := Update(q, ticks[0].speed, windowHeight);
      (if s.landed then 1 else 0) + (if s.killed then 0 else Landings(s.platform, ticks[1..], windowHeight))
  }

  /** `on_land` fires at most once in a platform's lifetime, and never
      again once `has_player` is set: the flag is never cleared. */
  lemma {:induction false} LandsAtMostOnce(p: Platform, ticks: seq<LifeTick>, windowHeight: int)
    ensures Landings(p, ticks, windowHeight) <= if p.hasPlayer then 0 else 1
    decreases |ticks|
  {
    if |ticks| > 0 {
      var q := if ticks[0].attach then p.(carrying := true) else p;
      var s := Update(q, ticks[0].speed, windowHeight);
      if !s.killed {
        LandsAtMostOnce(s.platform, ticks[1..], windowHeight);
      }
    }
  }

  /** Once the player is set on an exit platform, every later update fires
      the callback again, however many ticks follow. */
  lemma ExitKeepsFiring(p: Platform, speeds: seq<int>)
    requires p.carrying
    ensures forall i :: 0 <= i < |speeds| ==> ExitUpdate(ExitRun(p, speeds[..i]), speeds[i]).fired
  {
    forall i | 0 <= i < |speeds|
      ensures ExitRun(p, speeds[..i]).carrying
    {
      ExitRunKeepsPlayer(p, speeds[..i]);
    }
  }

  /** An exit platform after the given updates. */
  function ExitRun(p: Platform, speeds: seq<int>): Platform
    decreases |speeds|
  {
    if |speeds| == 0 then p else ExitRun(ExitUpdate(p, speeds[0]).platform, speeds[1..])
  }

  lemma {:induction false} ExitRunKeepsPlayer(p: Platform, speeds: seq<int>)
    ensures ExitRun(p, speeds).carrying == p.carrying
    decreases |speeds|
  {
    if |speeds| > 0 {
      ExitRunKeepsPlayer(ExitUpdate(p, speeds[0]).platform, speeds[1..]);
    }
  }

}

=== FILE: player_sprite.dfy ===
/** The player of player.py: horizontal wrap-around, the jump guard,
    gravity, the platform-landing scan and the death check. Pixel constants
    are doubled into half-pixels; gravity is an integer step. */
module PlayerSprite {

  import opened Wrappers
  import opened Geometry
  import opened Settings
  import opened PlatformSprite

  /** `self.speed = 3` pixels. */
  const WalkSpeed: int := 6
  /** `self.jump_force = -20` pixels per tick. */
  const JumpForce: int := -40

  /** `current` stands for `current_platform`: the position, in the
      platforms group, of the platform the player stands on. */
  datatype Player = Player(
    rect: Rect,
    dirX: int,
    dirY: int,
    speed: int,
    jumping: bool,
    jumpForce: int,
    gravity: int,
    current: Option<nat>
  )

  /** The movement fields of `Player.__init__`. */
  function Spawn(cfg: Config, x: int, y: int): (p: Player)
    ensures p.rect.Left() == x && p.rect.Top() == y
    ensures p.rect.w == cfg.playerWidth && p.rect.h == cfg.playerHeight
    ensures p.dirX == 0 && p.dirY == 0 && !p.jumping
    ensures p.current == None
  {
    Player(Rect(x, y, cfg.playerWidth, cfg.playerHeight), 0, 0, WalkSpeed, false, JumpForce, cfg.gravity, None)
  }

  /** `jump`: only a player that is not already jumping gets the impulse. */
  function Jump(p: Player): (r: Player)
    ensures r.jumping
    ensures p.jumping ==> r == p
    ensures !p.jumping ==> r.dirY == p.jumpForce && r == p.(jumping := true, dirY := r.dirY)
  {
    if !p.jumping then p.(jumping := true, dirY := p.jumpForce) else p
  }

  /** Jumping twice in a row is the same as jumping once. */
  lemma JumpIdempotent(p: Player)
    ensures Jump(Jump(p)) == Jump(p)
  {
  }

  /** `handle_horizontal_movement`: walk, then reappear on the other side
      once the sprite has left the window completely. */
  function MoveHorizontally(cfg: Config, p: Player): (r: Player)
    requires cfg.Valid()
    ensures -(p.rect.w as int) <= r.rect.Left() <= cfg.windowWidth
    ensures r == p.(rect := p.rect.(x := r.rect.x))
    ensures var moved := p.rect.x + p.speed * p.dirX;
      && (moved + p.rect.w < 0 ==> r.rect.Left() == cfg.windowWidth)
      && (moved > cfg.windowWidth ==> r.rect.Right() == 0)
      && (-(p.rect.w as int) <= moved <= cfg.windowWidth ==> r.rect.x == moved)
  {
    var moved := p.rect.(x := p.rect.x + p.speed * p.dirX);
    if moved.Right() < 0 then p.(rect := moved.(x := cfg.windowWidth))
    else if moved.Left() > cfg.windowWidth then p.(rect := moved.WithRight(0))
    else p.(rect := moved)
  }

  /** `apply_gravity`: only a player not standing on a platform falls. */
  function ApplyGravity(p: Player): (r: Player)
    ensures p.current.None? ==>
      && r.dirY == p.dirY + p.gravity
      && r.rect == p.rect.ShiftY(r.dirY)
      && r == p.(dirY := r.dirY, rect := r.rect)
    ensures p.current.Some? ==> r == p
  {
    if p.current.None? then
      var dy := p.dirY + p.gravity;
      p.(dirY := dy, rect := p.rect.ShiftY(dy))
    else p
  }

  /** Landing from above: the rectangles overlap and the player's centre
      is higher than the platform's. */
  predicate LandsOn(pr: Rect, q: Platform) {
    Overlaps(q.rect, pr) && pr.CenterY() < q.rect.CenterY()
  }

  /** The scan over the platforms group: the first platform, in group
      order, the player lands on. */
  function FirstLanding(ps: seq<Platform>, pr: Rect): (r: Option<nat>)
    ensures r.Some? ==>
      && r.value < |ps|
      && LandsOn(pr, ps[r.value])
      && forall j :: 0 <= j < r.value ==> !LandsOn(pr, ps[j])
    ensures r.None? <==> forall j :: 0 <= j < |ps| ==> !LandsOn(pr, ps[j])
    decreases |ps|
  {
    if |ps| == 0 then None
    else if LandsOn(pr, ps[0]) then Some(0)
    else
      match FirstLanding(ps[1..], pr)
      case None => None
      case Some(i) => Some(i + 1)
  }

  /** The scan over the exit platforms: every exit platform the player
      lands on gets the player set; there is no early exit. */
  function MarkExits(es: seq<Platform>, pr: Rect): (r: seq<Platform>)
    ensures |r| == |es|
    ensures forall i :: 0 <= i < |es| ==>
      && (r[i].carrying <==> es[i].carrying || LandsOn(pr, es[i]))
      && r[i] == es[i].(carrying := r[i].carrying)
  {
    seq(|es|, i requires 0 <= i < |es| => if LandsOn(pr, es[i]) then es[i].(carrying := true) else es[i])
  }

  datatype Vertical = Vertical(player: Player, platforms: seq<Platform>, exits: seq<Platform>)

  /** `handle_vertical_movement`. The scan branch always ends by clearing
      `current_platform`, even after a landing (player.py:103). */
  function MoveVertically(p: Player, ps: seq<Platform>, es: seq<Platform>): (r: Vertical)
    requires p.current.Some? ==> p.current.value < |ps|
    // standing on a platform: pinned to its top edge
    ensures p.current.Some? && !p.jumping ==>
      && r.player == p.(rect := p.rect.WithBottom(ps[p.current.value].rect.Top()))
      && r.platforms == ps && r.exits == es
    // jumped off a platform: detached
    ensures p.current.Some? && p.jumping ==>
      r.player == p.(current := None) && r.platforms == ps && r.exits == es
    // airborne: the scans
    ensures p.current.None? ==>
      && r.player.current.None?
      && r.exits == MarkExits(es, p.rect)
      && match FirstLanding(ps, p.rect)
         case None => r.player == p && r.platforms == ps
         case Some(i) =>
           && r.player.rect.Bottom() == ps[i].rect.Top()
           && r.player == p.(dirY := 0, jumping := false, rect := p.rect.WithBottom(ps[i].rect.Top()))
           && |r.platforms| == |ps|
           && r.platforms[i].carrying
           && (forall j :: 0 <= j < |ps| ==> r.platforms[j] == ps[j].(carrying := r.platforms[j].carrying))
           && (forall j :: 0 <= j < |ps| && j != i ==> r.platforms[j] == ps[j])
  {
    if p.current.Some? && !p.jumping then
      Vertical(p.(rect := p.rect.WithBottom(ps[p.current.value].rect.Top())), ps, es)
    else if p.current.Some? then
      Vertical(p.(current := None), ps, es)
    else
      var es' := MarkExits(es, p.rect);
      match FirstLanding(ps, p.rect)
      case None => Vertical(p.(current := None), ps, es')
      case Some(i) =>
        var q := ps[i].(carrying := true);
        var landed := p.(current := Some(i), dirY := 0, rect := p.rect.WithBottom(q.rect.Top()), jumping := false);
        Vertical(landed.(current := None), ps[i := q], es')
  }

  datatype Outcome = Outcome(player: Player, platforms: seq<Platform>, exits: seq<Platform>, died: bool)

  /** `Player.update` without the animation: move sideways, fall, resolve
      collisions, then call `on_death` when the top edge is below the
      window. */
  function Update(cfg: Config, p: Player, ps: seq<Platform>, es: seq<Platform>): (r: Outcome)
    requires cfg.Valid()
    requires p.current.Some? ==> p.current.value < |ps|
    ensures var v := MoveVertically(ApplyGravity(MoveHorizontally(cfg, p)), ps, es);
      r.player == v.player && r.platforms == v.platforms && r.exits == v.exits
    ensures r.died <==> r.player.rect.Top() > cfg.windowHeight
    ensures |r.platforms| == |ps| && |r.exits| == |es|
    ensures p.current.None? ==> r.player.current.None?
  {
    var v := MoveVertically(ApplyGravity(MoveHorizontally(cfg, p)), ps, es);
    Outcome(v.player, v.platforms, v.exits, v.player.rect.Top() > cfg.windowHeight)
  }

  /** Since `current_platform` starts as None and the scan branch always
      clears it, a player that has never stood on a platform never does:
      every update applies gravity, landing or not. */
  lemma GravityAlwaysApplies(cfg: Config, p: Player, ps: seq<Platform>, es: seq<Platform>)
    requires cfg.Valid()
    requires p.current.None?
    ensures var r := Update(cfg, p, ps, es);
      && r.player.current.None?
      && (FirstLanding(ps, ApplyGravity(MoveHorizontally(cfg, p)).rect).None? ==> r.player.dirY == p.dirY + p.gravity)
  {
  }

}

=== FILE: settings.dfy ===
/** The game's configuration constants, taken as parameters rather than
    fixed values. Lengths are in half-pixels. */
module Settings {

  datatype Config = Config(
    tileSize: nat,        // TILE_SIZE
    windowWidth: int,     // WINDOW_WIDTH
    windowHeight: int,    // WINDOW_HEIGHT
    widthInTiles: int,    // WINDOW_WIDTH_IN_TILES
    exitAmount: int,      // EXIT_AMOUNT
    speedEvery: int,      // NUM_OF_PLATFORMS_BEFORE_SPEED_INCREASE
    maxSpeed: int,        // MAX_PLATFORM_SPEED, in half-pixels per tick
    playerWidth: nat,     // PLAYER_SIZE
    playerHeight: nat,
    gravity: int          // the player's gravity_force, as an integer step
  ) {

    /** What the model assumes of the constants: a tile has a size, and
        both score moduli are positive (Python's `%` raises on a zero
        divisor, and with a positive divisor Python's floored `%` and
        Dafny's Euclidean `%` agree). The code never checks the window
        width; the player's wrap-around bound needs it non-negative. */
    predicate Valid() {
      && tileSize > 0
      && windowWidth >= 0
      && exitAmount > 0
      && speedEvery > 0
    }
  }

}

=== FILE: text_split.dfy ===
/** The string split inside `render_multi_colour_text` (utils.py): the
    characters at even positions are joined by single spaces into one
    string, and the characters at odd positions, behind a leading space,
    into another, so that the two renderings overlay into the original
    text. */
module TextSplit {

  /** `s[::2]`: every other character, starting with the first. */
  function Stride(s: seq<char>): (r: seq<char>)
    ensures |r| == (|s| + 1) / 2
    ensures forall k :: 0 <= k < |r| ==> r[k] == s[2 * k]
    decreases |s|
  {
    if |s| == 0 then []
    else if |s| == 1 then [s[0]]
    else [s[0]] + Stride(s[2..])
  }

  /** `" ".join(cs)`: the characters separated by single spaces. The k-th
      character sits at position 2k, and every odd position is a space. */
  function Spaced(cs: seq<char>): (r: seq<char>)
    ensures |r| == if |cs| == 0 then 0 else 2 * |cs| - 1
    ensures forall k :: 0 <= k < |cs| ==> r[2 * k] == cs[k]
    ensures forall j :: 0 <= j < |r| && j % 2 == 1 ==> r[j] == ' '
    decreases |cs|
  {
    if |cs| <= 1 then cs
    else
      var rest := Spaced(cs[1..]);
      var r := [cs[0], ' '] + rest;
      forall k | 1 <= k < |cs|
        ensures r[2 * k] == cs[k]
      {
        assert r[2 * k] == rest[2 * (k - 1)];
        assert cs[1..][k - 1] == cs[k];
      }
      forall j | 2 <= j < |r| && j % 2 == 1
        ensures r[j] == ' '
      {
        assert r[j] == rest[j - 2];
        assert (j - 2) % 2 == 1;
      }
      r
  }

  /** `text[1::2]`. */
  function OddPositions(text: seq<char>): (r: seq<char>)
    ensures |r| == |text| / 2
    ensures forall k :: 0 <= k < |r| ==> r[k] == text[2 * k + 1]
  {
    if |text| == 0 then [] else Stride(text[1..])
  }

  /** `odd_text`, drawn in the first colour. */
  function OddText(text: seq<char>): seq<char> {
    Spaced(Stride(text))
  }

  /** `even_text`, drawn in the second colour. */
  function EvenText(text: seq<char>): seq<char> {
    [' '] + Spaced(OddPositions(text))
  }

  /** `odd_text` holds text[0], text[2], ... at its even positions and
      spaces at its odd positions. */
  lemma OddTextLayout(text: seq<char>)
    ensures |OddText(text)| == if |text| == 0 then 0 else 2 * ((|text| + 1) / 2) - 1
    ensures forall i :: 0 <= i < |OddText(text)| ==>
      OddText(text)[i] == if i % 2 == 0 then text[i] else ' '
  {
    var o := OddText(text);
    forall i | 0 <= i < |o| && i % 2 == 0
      ensures o[i] == text[i]
    {
      assert o[i] == Stride(text)[i / 2];
      assert 2 * (i / 2) == i;
    }
  }

  /** `even_text` is a space followed by text[1], text[3], ... joined by
      spaces: its odd positions hold those characters, its even positions
      spaces. */
  lemma EvenTextLayout(text: seq<char>)
    ensures |EvenText(text)| == if |text| < 2 then 1 else 2 * (|text| / 2)
    ensures forall i :: 0 <= i < |EvenText(text)| ==>
      EvenText(text)[i] == if i % 2 == 1 then text[i] else ' '
  {
    var e := EvenText(text);
    var sp := Spaced(OddPositions(text));
    forall i | 0 <= i < |e|
      ensures e[i] == if i % 2 == 1 then text[i] else ' '
    {
      if i > 0 {
        assert e[i] == sp[i - 1];
        if i % 2 == 1 {
          assert (i - 1) % 2 == 0;
          assert sp[i - 1] == OddPositions(text)[(i - 1) / 2];
          assert 2 * ((i - 1) / 2) + 1 == i;
        }
      }
    }
  }

  /** An even position of the text shows through `odd_text`. */
  lemma OddTextAt(text: seq<char>, i: nat)
    requires i < |text| && i % 2 == 0
    ensures i < |OddText(text)| && OddText(text)[i] == text[i]
  {
    var st := Stride(text);
    var k := i / 2;
    assert i == 2 * k && k < |st|;
    assert OddText(text)[i] == st[k];
  }

  /** An odd position of the text shows through `even_text`. */
  lemma EvenTextAt(text: seq<char>, i: nat)
    requires i < |text| && i % 2 == 1
    ensures i < |EvenText(text)| && EvenText(text)[i] == text[i]
  {
    var od := OddPositions(text);
    var k := (i - 1) / 2;
    assert i == 2 * k + 1 && k < |od|;
    assert Spaced(od)[2 * k] == od[k];
    assert EvenText(text)[i] == Spaced(od)[2 * k];
  }

  /** Laying the two strings over each other recovers the text: position i
      of the text shows through `odd_text` when i is even and through
      `even_text` when i is odd. */
  lemma OverlayRecoversText(text: seq<char>)
    ensures forall i :: 0 <= i < |text| && i % 2 == 0 ==>
      i < |OddText(text)| && OddText(text)[i] == text[i]
    ensures forall i :: 0 <= i < |text| && i % 2 == 1 ==>
      i < |EvenText(text)| && EvenText(text)[i] == text[i]
  {
    forall i | 0 <= i < |text| && i % 2 == 0
      ensures i < |OddText(text)| && OddText(text)[i] == text[i]
    {
      OddTextAt(text, i);
    }
    forall i | 0 <= i < |text| && i % 2 == 1
      ensures i < |EvenText(text)| && EvenText(text)[i] == text[i]
    {
      EvenTextAt(text, i);
    }
  }

  /** The empty text yields an empty `odd_text` and a one-space `even_text`. */
  lemma EmptyText()
    ensures OddText([]) == [] && EvenText([]) == [' ']
  {
  }

}

=== FILE: wrappers.dfy ===
/** Wrappers used across the model: an optional value
    (Python's `None` or an object) and a result carrying either a value or
    the error the source would raise. */
module Wrappers {

  datatype Option<+T> = None | Some(value: T)

  datatype Result<+T, +E> = Success(value: T) | Failure(error: E)

}
